=== FILE: README.md ===
# MOBILE-UTIL chat and sign-in logic in Dafny

This project models the logic inside two screens of the app. The first is
the home screen (`app/homescreen.tsx`), where a user chats with one of four
AI agents. The second is the sign-in screen (`app/index.tsx`).

On the home screen the model covers:

- the per-agent chat history: a fixed table of four agent keys (NFT,
  TRADING, ANALYSIS, BOT), each with its list of `{role, content}` messages;
- selecting an agent;
- sending a message: blank input is ignored, the user turn is appended,
  the request context is built (the system prompt plus the last five
  messages), and the reply or a fixed apology is stored;
- "New Chat";
- grouping consecutive messages of one role into bubbles;
- the avatar letter and the name labels of the signed-in user.

On the sign-in screen the model covers:

- the e-mail validator, whose regular expression is stated as a split
  `a@b.c`;
- the password validator, with its error-message precedence;
- the rule that sign-in proceeds only when both validators pass;
- re-validation while typing, which runs only while a field shows an error;
- the start-up decision taken from the stored token.

Modules:

- `Optional`: the option type.
- `JsText`: the JavaScript string operations the code relies on. These are
  `trim` and `\s`, with the exact ECMAScript white-space and line-terminator
  set; `length` in UTF-16 code units; `split(c)[0]`; and an ASCII
  `toUpperCase`. A first-occurrence search, `JsText.IndexOf`, underlies
  `split(c)[0]` and the e-mail shape.
- `Agents`: the agent table, mapping each key to a name and a system prompt.
- `Chat`: the home-screen state and its transitions.
- `Bubbles`: `renderChatMessages` and its grouping loop.
- `Login`: the sign-in screen.
- `Profile`: the user labels.

The remote completion call, storage, navigation and timers are not
performed. Their results enter the model as parameters:

- `Chat.Outcome` is a reply, a response without choices, or a failure.
- The success of the token write is a boolean.
- The token read (`Login.TokenRead`) is a value or a failure.

## Model

| member | source | states |
|---|---|---|
| Agents.Lookup | app/homescreen.tsx:60-101 | the agent table has an entry exactly for the keys NFT, TRADING, ANALYSIS and BOT |
| Chat.FindIsFirstMatch | app/homescreen.tsx:204-206 | looking up an agent's list yields the first entry with that key, and nothing exactly when no entry has it |
| Chat.UpdateAgent | app/homescreen.tsx:212-220 | mapping over the history keeps its length and order, edits every entry of the chosen key and leaves every other entry as it was |
| Chat.FindUpdatedSame | app/homescreen.tsx:212-220 | after an edit for a key, that key's lookup yields the edited list, or still nothing |
| Chat.FindUpdatedOther | app/homescreen.tsx:212-220 | an edit for one key never changes what any other key's lookup yields |
| Chat.MessagesOfUpdate | app/homescreen.tsx:212-220 | for a key with an entry, its list after the edit is the edited list and every other key's list is unchanged |
| Chat.UpdateAppendTwice | app/homescreen.tsx:256-268 | appending `a` and then `b` to one agent is the same as appending `a + b` |
| Chat.UpdateClearTwice | app/homescreen.tsx:1236-1242 | clearing one agent's list twice is clearing it once |
| Chat.WellFormedHasEntry | app/homescreen.tsx:145-151 | when the selection is a table key and the history is in table shape, the selected agent's lookup never misses |
| Chat.EmptyListsHaveNoMessages | app/homescreen.tsx:146-151 | a history whose lists are all empty gives no messages for any key |
| Chat.Initial | app/homescreen.tsx:145-151 | the screen starts with BOT selected, four empty lists in table order, empty input and no loading |
| Chat.SelectAgent | app/homescreen.tsx:199-202 | selecting an agent changes only the selection; the state stays well formed exactly when the key is in the table |
| Chat.EditInput | app/homescreen.tsx:1266 | typing stores the text unchanged and touches nothing else |
| JsText.TrimEmptyIffAllSpace | app/homescreen.tsx:209 | input counts as blank exactly when every character is JavaScript white space or a line terminator |
| Chat.StartSend | app/homescreen.tsx:209-224 | blank input changes nothing; otherwise the untrimmed input is appended to the selected list as a user turn, other lists are unchanged, the input is cleared and loading is raised |
| Chat.LastN | app/homescreen.tsx:234 | `slice(-n)` yields the last min(n, length) elements for n of at least 1, and the whole list for n = 0, since `slice(-0)` is `slice(0)` |
| Chat.RequestContext | app/homescreen.tsx:228-235 | the request is a system turn with the selected agent's prompt, then the last min(5, n) messages; it cannot be built when the key is not one of the table's keys |
| Chat.SendContext | app/homescreen.tsx:222-235 | for a real send the request has at most six messages, starts with the system prompt and ends with the user turn just added |
| Chat.FinishSend | app/homescreen.tsx:252-299 | the intended completion, the correction listed under Findings (the code as written is Chat.FinishSendAsWritten): it appends the reply, the apology or nothing to the sending agent's list as it is when the reply arrives, leaves other lists alone and lowers loading; it agrees with the code as written only on an uninterrupted send |
| Chat.Send | app/homescreen.tsx:208-299 | blank input leaves the state unchanged and every send keeps the state well formed |
| Chat.SendEffect | app/homescreen.tsx:212-295 | a send ends with old ++ [user, reply], old ++ [user, apology] or old ++ [user]; other agents are unchanged and the input is empty |
| Chat.NewChat | app/homescreen.tsx:1236-1242 | "New Chat" empties the selected agent's list and leaves every other list untouched |
| Chat.NewChatIdempotent | app/homescreen.tsx:1236-1242 | pressing "New Chat" twice is pressing it once |
| Chat.RunKeepsWellFormed | app/homescreen.tsx:199-202 | any sequence of menu picks, typing, sends and "New Chat" keeps the state well formed |
| Chat.SelectionAlwaysKnown | app/homescreen.tsx:513-519 | from the start, the selection is always one of the four keys, the history holds exactly those four entries in order, and both lookups of the selection succeed |
| Chat.FinishSendAsWritten | app/homescreen.tsx:256-292 | the completion as written rebuilds the history from the state captured at send time: the sending agent's list becomes its list at send time plus the user turn and the reply or apology, other lists revert to their send-time contents, and edits made while pending are lost |
| Chat.MessagesOfOtherKeys | app/homescreen.tsx:212-220 | an edit for one key leaves the lists of all other keys unchanged |
| Chat.FinishAgreesWhenUninterrupted | app/homescreen.tsx:256-292 | with nothing in between, the completion as written and the corrected completion give the same state |
| Chat.StaleCompletionUndoesNewChat | app/homescreen.tsx:256-268 | a "New Chat" pressed while a request is pending is undone by the completion as written, but kept by the corrected one |
| Bubbles.RunLength | app/homescreen.tsx:357-388 | the leading run is non-empty, all of one role, and maximal |
| Bubbles.RunsIsRolePartition | app/homescreen.tsx:354-441 | the maximal runs concatenate back to the messages, are non-empty and single-role, and neighbouring runs differ in role |
| Bubbles.RolePartitionUnique | app/homescreen.tsx:354-441 | any grouping with those properties is the sequence of maximal runs |
| Bubbles.GroupByRole | app/homescreen.tsx:353-441 | the loop yields the maximal runs: they concatenate to the messages and are single-role; neighbours differ; the count is 1 plus the role changes; none for no messages |
| Bubbles.RenderChatMessages | app/homescreen.tsx:302-304 | an empty or missing list shows the selected agent's empty state; otherwise a non-empty role partition of its messages is shown |
| JsText.Trim | app/homescreen.tsx:209 | trimming removes exactly the leading and trailing white space |
| JsText.Utf16Length | app/index.tsx:66 | `length` counts UTF-16 code units: between one and two per character, zero only for the empty string |
| JsText.Utf16LengthOfBmp | app/index.tsx:66 | for text without characters beyond the Basic Multilingual Plane, `length` is the number of characters |
| JsText.Count | app/index.tsx:50 | the count of a character is zero exactly when it does not occur |
| JsText.CountAppend | app/index.tsx:50 | counting is additive over concatenation |
| JsText.IndexOf | app/homescreen.tsx:548 | the first-occurrence search behind `split(c)[0]` and the e-mail shape gives the first position of the character, or nothing when it is absent |
| JsText.ToUpperAscii | app/homescreen.tsx:543 | a..z are upper-cased by the fixed ASCII offset; every other character is returned unchanged |
| JsText.BeforeFirst | app/homescreen.tsx:548 | `split(c)[0]` is the part before the first `c`, or the whole text when there is none |
| Login.EmailPatternIffShape | app/index.tsx:50 | the pattern holds exactly when the text has no white space, one '@' that is not first, and a '.' strictly inside the part after the '@' |
| Login.ValidateEmail | app/index.tsx:49-60 | empty gives "Email is required"; a non-match gives "Please enter a valid email"; it accepts exactly the split a@b.c and clears the error |
| Login.ValidatePassword | app/index.tsx:62-72 | empty gives "Password is required"; under six code units gives "Password must be at least 6 characters"; otherwise it passes and clears the error |
| Login.SixCharactersPass | app/index.tsx:66 | any password of six or more characters passes |
| Login.EmptyForm | app/index.tsx:24-30 | the form starts with no errors shown and not loading |
| Login.TypeEmail | app/index.tsx:137-140 | typing an address re-validates it only while an error is shown, and keeps every shown error describing the current text; the password, its error and the loading flag are unchanged |
| Login.TypePassword | app/index.tsx:154-157 | typing a password re-validates it only while an error is shown, and keeps every shown error describing the current text; the address, its error and the loading flag are unchanged |
| Login.HandleLogin | app/index.tsx:74-94 | both validators always run; the token is stored and home opened exactly when both pass and the write succeeds; loading ends lowered |
| Login.LoginErrorsMatchVerdicts | app/index.tsx:75-80 | after pressing sign-in a field shows no error exactly when its content is acceptable |
| Login.CheckLogin | app/index.tsx:32-47 | start-up opens home exactly when a non-empty token is read; an absent or empty token, or a failed read, shows the form |
| Login.StoredTokenOpensHome | app/index.tsx:87-88 | the token stored by a successful sign-in makes the next start-up open home |
| Profile.Initial | app/homescreen.tsx:543 | the avatar letter is one character: the first name's first, else the address's first upper-cased, else "U" |
| Profile.ShortName | app/homescreen.tsx:548 | the short name is never empty: the first name, else the address before its first '@', else "Profile" |
| Profile.MenuName | app/homescreen.tsx:597-599 | the menu name is never empty: "first last" when both are set, else the first listed address, else "User" |
| Profile.InitialStartsShortName | app/homescreen.tsx:1192-1197 | the avatar letter is the short name's first character, upper-cased when the short name comes from the address; an address starting with '@' gives the letter '@' against the short name "Profile" |

## Left out

- The completion request itself, meaning the `fetch` and JSON parsing at `app/homescreen.tsx:238-251`. Its result is the `Chat.Outcome` parameter.
- AsyncStorage, Clerk sign-out, router navigation, `alert`, the simulated 1500 ms delay and the scroll-to-end timer. Only the decisions they feed are modelled.
- Rendering, styles, animation, modals, the window-size listener and `getResponsiveValues`. These are presentation only.
- The agent table's icons, colours and gradients. Only each key's name and system prompt are modelled.
- The empty-state suggestion texts and the input placeholder. These are fixed display strings.
- `app/_layout.tsx`. It loads fonts and reads the stored token into a logged-in flag (lines 14-20), renders nothing until both are done (lines 22-24), and then mounts the router. The flag decides nothing else, and the start-up decision itself is `Login.CheckLogin`.
- Chat.RequestContext: a selected key that names an inherited JavaScript object property (`toString`, `constructor`, `__proto__`) does not make `AI_AGENTS[key]` throw. Its `systemPrompt` is `undefined` and the source sends the request without a prompt. The model treats such a key like any other key outside the table, as a failed request. The agent menu (`app/homescreen.tsx:513-519`) offers only the four table keys, so no such selection arises.
- Chat.Send: the send button is also disabled while a request is pending. The model's sends run to completion one at a time, so that guard has no effect and is not modelled.
- JsText.ToUpperAscii: it upper-cases only `a`..`z`. JavaScript's `toUpperCase` also maps non-ASCII letters, and can turn one character into several.
- Profile.Initial: JavaScript `s[0]` is a UTF-16 code unit. The model takes the first character, which differs only for characters outside the Basic Multilingual Plane.
- Login.HandleLogin: the `isLoading` flag is raised only during the delay and the write. The model shows only its value after the call, which is false.
- Login.HandleLogin: a failure while navigating is folded into `writeSucceeds`.

## Findings

| source | as written | input that shows it | evidently intended | confidence | as-written member | corrected member |
|---|---|---|---|---|---|---|
| app/homescreen.tsx:256-268 | the completion maps over `chatHistory` as captured when the input was sent, and appends the user turn again | send a message, press "New Chat" while the reply is pending: the cleared list returns with the old messages, the user turn and the reply | append only the reply to the list as it is when the reply arrives | medium, not executed | Chat.FinishSendAsWritten, Chat.StaleCompletionUndoesNewChat | Chat.FinishSend |

=== FILE: agents.dfy ===
/**
 * The fixed table of AI agent personas of the home screen, reduced to the
 * data the chat logic reads: the display name and the system prompt sent
 * ahead of every request.
 */
module Agents {

  import opened Optional

  datatype AgentProfile = AgentProfile(name: string, systemPrompt: string)

  /** The table's keys, in declaration order (the order the menu lists them in). */
  const AgentKeys: seq<string> := ["NFT", "TRADING", "ANALYSIS", "BOT"]

  /** The agent selected when the home screen opens. */
  const DefaultAgent: string := "BOT"

  const NftPrompt: string :=
    "You are an NFT specialist AI assistant. You have deep knowledge of NFT marketplaces, digital art valuation, blockchain technology, and NFT trading strategies. Provide concise, accurate information about NFTs, digital collectibles, and the NFT ecosystem."
  const TradingPrompt: string :=
    "You are a real-time trading expert AI assistant. You have extensive knowledge of market dynamics, trading indicators, risk management, and execution strategies. Provide concise, practical advice on trading decisions, market trends, and trading strategies."
  const AnalysisPrompt: string :=
    "You are a market analysis AI assistant. You excel at interpreting market data, identifying patterns, and explaining complex economic factors. Provide concise insights on market trends, sector analysis, and economic indicators that affect investment decisions."
  const BotPrompt: string :=
    "You are an automated trading bot assistant. You specialize in algorithmic trading strategies, bot configuration, and automated execution systems. Provide concise advice on building, configuring, and optimizing trading bots for various market conditions."

  /**
   * `AI_AGENTS[key]` for the table's own keys: the profile stored under
   * `key`, or nothing for any other string. Names of inherited object
   * properties such as "toString" are among the other strings here.
   */
  function Lookup(key: string): (r: Option<AgentProfile>)
    ensures r.Some? <==> key in AgentKeys
  {
    if key == "NFT" then Some(AgentProfile("NFT Specialist", NftPrompt))
    else if key == "TRADING" then Some(AgentProfile("Trading Expert", TradingPrompt))
    else if key == "ANALYSIS" then Some(AgentProfile("Market Analyst", AnalysisPrompt))
    else if key == "BOT" then Some(AgentProfile("Trading Bot", BotPrompt))
    else None
  }
}

=== FILE: bubbles.dfy ===
/**
 * `renderChatMessages` of the home screen: the selected agent's messages
 * are shown either as the empty-chat placeholder or as a list of bubbles,
 * one bubble per maximal run of consecutive messages with the same role.
 */
module Bubbles {

  import opened Chat

  /** The groups' messages, in order. */
  function Flatten(groups: seq<seq<Message>>): seq<Message> {
    if groups == [] then [] else Flatten(groups[..|groups| - 1]) + groups[|groups| - 1]
  }

  /** The role shared by a group (its first message's role; "" for no message). */
  function HeadRole(g: seq<Message>): string {
    if g == [] then "" else g[0].role
  }

  /** All messages of `g` have the same role. */
  predicate SameRole(g: seq<Message>) {
    forall k :: 0 <= k < |g| ==> g[k].role == HeadRole(g)
  }

  /**
   * `groups` splits `msgs` into bubbles: concatenated in order they give
   * back `msgs`, every group is non-empty and of one role, and neighbouring
   * groups have different roles.
   */
  predicate IsRolePartition(groups: seq<seq<Message>>, msgs: seq<Message>) {
    Flatten(groups) == msgs && WellGrouped(groups)
  }

  /** Every group is non-empty and of one role; neighbouring groups differ in role. */
  predicate WellGrouped(groups: seq<seq<Message>>) {
    && (forall j :: 0 <= j < |groups| ==> groups[j] != [] && SameRole(groups[j]))
    && (forall j :: 0 < j < |groups| ==> HeadRole(groups[j]) != HeadRole(groups[j - 1]))
  }

  /** The number of positions where a message's role differs from the previous one's. */
  function RoleChanges(msgs: seq<Message>): nat {
    if |msgs| <= 1 then 0
    else RoleChanges(msgs[..|msgs| - 1]) + (if msgs[|msgs| - 1].role != msgs[|msgs| - 2].role then 1 else 0)
  }

  /** The length of the longest prefix of `msgs` whose roles all equal the first one's. */
  function RunLength(msgs: seq<Message>): (n: nat)
    requires msgs != []
    ensures 1 <= n <= |msgs|
    ensures forall k :: 0 <= k < n ==> msgs[k].role == msgs[0].role
    ensures n < |msgs| ==> msgs[n].role != msgs[0].role
  {
    if |msgs| == 1 || msgs[1].role != msgs[0].role then 1
    else 1 + RunLength(msgs[1..])
  }

  /** The maximal runs of `msgs`, front to back: the reference grouping. */
  function Runs(msgs: seq<Message>): seq<seq<Message>>
    decreases |msgs|
  {
    if msgs == [] then []
    else
      var n := RunLength(msgs);
      [msgs[..n]] + Runs(msgs[n..])
  }

  lemma {:induction false} FlattenCons(g: seq<Message>, groups: seq<seq<Message>>)
    ensures Flatten([g] + groups) == g + Flatten(groups)
    decreases |groups|
  {
    if groups != [] {
      assert ([g] + groups)[..|groups|] == [g] + groups[..|groups| - 1];
      FlattenCons(g, groups[..|groups| - 1]);
    }
  }

  /** A prefix of `msgs` that is all one role and cannot be extended is the leading run. */
  lemma MaximalPrefixIsRun(msgs: seq<Message>, n: nat)
    requires 1 <= n <= |msgs|
    requires forall k :: 0 <= k < n ==> msgs[k].role == msgs[0].role
    requires n < |msgs| ==> msgs[n].role != msgs[0].role
    ensures n == RunLength(msgs)
  {
  }

  /** Prepending a one-role group whose role differs from the next group's keeps the groups well formed. */
  lemma ConsGroup(g: seq<Message>, groups: seq<seq<Message>>)
    requires WellGrouped(groups)
    requires g != [] && SameRole(g)
    requires groups != [] ==> HeadRole(groups[0]) != HeadRole(g)
    ensures WellGrouped([g] + groups)
  {
  }

  /** The first message of a flattening is the first message of its first group. */
  lemma FlattenHead(groups: seq<seq<Message>>)
    requires groups != [] && groups[0] != []
    ensures Flatten(groups) != [] && Flatten(groups)[0] == groups[0][0]
  {
  }

  /** The reference grouping satisfies the bubble properties. */
  lemma {:induction false} RunsIsRolePartition(msgs: seq<Message>)
    ensures IsRolePartition(Runs(msgs), msgs)
    decreases |msgs|
  {
    if msgs != [] {
      var n := RunLength(msgs);
      var rest := Runs(msgs[n..]);
      RunsIsRolePartition(msgs[n..]);
      FlattenCons(msgs[..n], rest);
      assert msgs[..n] + msgs[n..] == msgs;
      if rest != [] {
        FlattenHead(rest);
      }
      ConsGroup(msgs[..n], rest);
    }
  }

  /** Dropping the first group of a well-grouped sequence leaves a well-grouped sequence of the remaining messages. */
  lemma SplitFirstGroup(groups: seq<seq<Message>>)
    requires WellGrouped(groups) && groups != []
    ensures WellGrouped(groups[1..])
    ensures Flatten(groups) == groups[0] + Flatten(groups[1..])
  {
    assert [groups[0]] + groups[1..] == groups;
    FlattenCons(groups[0], groups[1..]);
    assert forall j :: 0 <= j < |groups| - 1 ==> groups[1..][j] == groups[j + 1];
  }

  /** The first group of a role partition is the leading run of the messages. */
  lemma FirstGroupIsRun(groups: seq<seq<Message>>, msgs: seq<Message>)
    requires IsRolePartition(groups, msgs) && groups != []
    ensures |groups[0]| == RunLength(msgs)
    ensures msgs[..|groups[0]|] == groups[0] && IsRolePartition(groups[1..], msgs[|groups[0]|..])
  {
    var g := groups[0];
    SplitFirstGroup(groups);
    assert msgs[..|g|] == g && msgs[|g|..] == Flatten(groups[1..]);
    if |groups| > 1 {
      SplitFirstGroup(groups[1..]);
      assert groups[1..][0] == groups[1];
      assert msgs[|g|] == groups[1][0];
    }
    MaximalPrefixIsRun(msgs, |g|);
  }

  /** The bubble properties determine the grouping: it can only be `Runs(msgs)`. */
  lemma {:induction false} RolePartitionUnique(groups: seq<seq<Message>>, msgs: seq<Message>)
    requires IsRolePartition(groups, msgs)
    ensures groups == Runs(msgs)
    decreases |msgs|
  {
    if groups != [] {
      FirstGroupIsRun(groups, msgs);
      RolePartitionUnique(groups[1..], msgs[|groups[0]|..]);
      assert [groups[0]] + groups[1..] == groups;
    }
  }

  lemma FlattenSnoc(groups: seq<seq<Message>>, g: seq<Message>)
    ensures Flatten(groups + [g]) == Flatten(groups) + g
  {
  }

  /** Closing a one-role group whose role differs from the last closed one keeps the groups well formed. */
  lemma CloseGroup(groups: seq<seq<Message>>, g: seq<Message>)
    requires WellGrouped(groups)
    requires g != [] && SameRole(g)
    requires groups != [] ==> HeadRole(groups[|groups| - 1]) != HeadRole(g)
    ensures WellGrouped(groups + [g])
  {
  }

  lemma RoleChangesStep(msgs: seq<Message>, i: nat)
    requires 0 < i < |msgs|
    ensures RoleChanges(msgs[..i + 1]) == RoleChanges(msgs[..i]) + (if msgs[i].role != msgs[i - 1].role then 1 else 0)
  {
    assert msgs[..i + 1][..i] == msgs[..i];
  }

  /**
   * The state of the grouping loop after the first `i` messages: the closed
   * groups followed by the open group spell `msgs[..i]`; the closed groups
   * are well grouped; the open group is of one role, `lastRole`, which is
   * the role of message `i - 1` and differs from the last closed group's;
   * and one group has been closed per role change so far.
   */
  predicate Grouping(msgs: seq<Message>, i: nat, groups: seq<seq<Message>>, group: seq<Message>, lastRole: string) {
    && i <= |msgs|
    && Flatten(groups) + group == msgs[..i]
    && WellGrouped(groups)
    && (group == [] <==> i == 0)
    && SameRole(group)
    && (i > 0 ==> HeadRole(group) == lastRole && lastRole == msgs[i - 1].role)
    && (groups != [] && group != [] ==> HeadRole(groups[|groups| - 1]) != lastRole)
    && (i > 0 ==> |groups| == RoleChanges(msgs[..i]))
  }

  /** A message of another role closes the open group and opens a new one. */
  lemma GroupingClose(msgs: seq<Message>, i: nat, groups: seq<seq<Message>>, group: seq<Message>, lastRole: string)
    requires Grouping(msgs, i, groups, group, lastRole)
    requires i < |msgs| && msgs[i].role != lastRole && group != []
    ensures Grouping(msgs, i + 1, groups + [group], [msgs[i]], msgs[i].role)
  {
  }

  /** A message of the open group's role (or the very first message) joins the open group. */
  lemma GroupingExtend(msgs: seq<Message>, i: nat, groups: seq<seq<Message>>, group: seq<Message>, lastRole: string)
    requires Grouping(msgs, i, groups, group, lastRole)
    requires i < |msgs| && (msgs[i].role == lastRole || group == [])
    ensures Grouping(msgs, i + 1, groups, group + [msgs[i]], msgs[i].role)
  {
    assert msgs[..i + 1] == msgs[..i] + [msgs[i]];
    if i > 0 {
      RoleChangesStep(msgs, i);
    } else {
      assert groups == [];
    }
    var g := group + [msgs[i]];
    assert forall k :: 0 <= k < |g| ==> g[k] == if k < |group| then group[k] else msgs[i];
  }

  /** Closing the open group after the walk yields the maximal runs. */
  lemma GroupingDone(msgs: seq<Message>, groups: seq<seq<Message>>, group: seq<Message>, lastRole: string)
    requires Grouping(msgs, |msgs|, groups, group, lastRole)
    ensures group != [] ==> IsRolePartition(groups + [group], msgs) && |groups| == RoleChanges(msgs)
    ensures group == [] ==> groups == [] && msgs == []
  {
    assert msgs[..|msgs|] == msgs;
    if group != [] {
      FlattenSnoc(groups, group);
      CloseGroup(groups, group);
    }
  }

  /**
   * The grouping loop of `renderChatMessages`: walking the messages with the
   * previous role in hand, a message whose role differs from it closes the
   * open group (when there is one) and opens a new group; any other message
   * joins the open group. The open group is closed after the walk.
   */
  method GroupByRole(msgs: seq<Message>) returns (groups: seq<seq<Message>>)
    ensures IsRolePartition(groups, msgs)
    ensures groups == Runs(msgs)
    ensures groups == [] <==> msgs == []
    ensures msgs != [] ==> |groups| == 1 + RoleChanges(msgs)
  {
    groups := [];
    var lastRole := "";
    var group: seq<Message> := [];
    for i := 0 to |msgs|
      invariant Grouping(msgs, i, groups, group, lastRole)
    {
      var m := msgs[i];
      if m.role != lastRole && |group| > 0 {
        GroupingClose(msgs, i, groups, group, lastRole);
        groups := groups + [group];
        group := [m];
      } else {
        GroupingExtend(msgs, i, groups, group, lastRole);
        group := group + [m];
      }
      lastRole := m.role;
    }
    GroupingDone(msgs, groups, group, lastRole);
    if |group| > 0 {
      groups := groups + [group];
    }
    RolePartitionUnique(groups, msgs);
  }

  /** What the chat area shows. */
  datatype ChatView = EmptyChat(agent: string) | MessageGroups(groups: seq<seq<Message>>)

  /**
   * `renderChatMessages`: the placeholder for the selected agent when it has
   * no entry or no messages, the role groups of its messages otherwise.
   */
  method RenderChatMessages(st: ChatState) returns (view: ChatView)
    ensures view.EmptyChat? <==> CurrentChat(st) == []
    ensures view.EmptyChat? ==> view.agent == st.selected
    ensures view.MessageGroups? ==> IsRolePartition(view.groups, CurrentChat(st)) && view.groups != []
  {
    var current := Find(st.history, st.selected);
    if current.None? || current.value == [] {
      view := EmptyChat(st.selected);
    } else {
      var groups := GroupByRole(current.value);
      view := MessageGroups(groups);
    }
  }
}

=== FILE: chat.dfy ===
/**
 * The home screen's chat state: one message list per agent key, the
 * selected agent, the text being typed, the loading flag and the last
 * reply, with the transitions the screen performs on them.
 *
 * The remote completion call is not modelled; its result enters as an
 * `Outcome`: a reply with at least one choice, a response without choices,
 * or a failure (a thrown fetch, an unreadable body, a missing field).
 */
module Chat {

  import opened Optional
  import opened JsText
  import Agents

  datatype Message = Message(role: string, content: string)

  datatype AgentChat = AgentChat(agent: string, messages: seq<Message>)

  datatype ChatState = ChatState(
    selected: string,
    history: seq<AgentChat>,
    input: string,
    loading: bool,
    aiResponse: string)

  datatype Outcome = Reply(content: string) | NoChoices | Failed

  /** The assistant text stored when the request fails. */
  const Apology: string := "Sorry, I couldn't process your request. Please try again."

  /** How many of the most recent messages accompany the system prompt. */
  const ContextWindow: nat := 5

  function UserTurn(text: string): Message { Message("user", text) }

  function AssistantTurn(text: string): Message { Message("assistant", text) }

  // ---------------------------------------------------------------------------
  // The per-agent table

  /**
   * The reachable shape of the state: the selected agent is a key of the
   * agent table and the history holds exactly one entry per key, in table
   * order.
   */
  predicate WellFormed(st: ChatState) {
    st.selected in Agents.AgentKeys && TableShaped(st.history)
  }

  /** One entry per key of the agent table, in table order. */
  predicate TableShaped(history: seq<AgentChat>) {
    && |history| == |Agents.AgentKeys|
    && forall i :: 0 <= i < |history| ==> history[i].agent == Agents.AgentKeys[i]
  }

  /** `history.find(chat => chat.agent === key)?.messages`: the first entry for `key`. */
  function Find(history: seq<AgentChat>, key: string): Option<seq<Message>> {
    if history == [] then None
    else if history[0].agent == key then Some(history[0].messages)
    else Find(history[1..], key)
  }

  /** Some entry of `history` is for `key`. */
  predicate HasEntry(history: seq<AgentChat>, key: string) {
    exists i :: 0 <= i < |history| && history[i].agent == key
  }

  /**
   * `Find` is `Array.prototype.find`: it yields the messages of the entry
   * at the least index whose key matches, and nothing when no entry matches.
   */
  lemma {:induction false} FindIsFirstMatch(history: seq<AgentChat>, key: string)
    ensures Find(history, key).None? <==> !HasEntry(history, key)
    ensures Find(history, key).Some? ==>
      exists i :: && 0 <= i < |history| && history[i].agent == key
                  && Find(history, key).value == history[i].messages
                  && forall j :: 0 <= j < i ==> history[j].agent != key
  {
    if history != [] && history[0].agent != key {
      FindIsFirstMatch(history[1..], key);
      assert forall i :: 1 <= i < |history| ==> history[1..][i - 1] == history[i];
      if Find(history, key).Some? {
        var i :| && 0 <= i < |history[1..]| && history[1..][i].agent == key
                 && Find(history, key).value == history[1..][i].messages
                 && forall j :: 0 <= j < i ==> history[1..][j].agent != key;
        assert forall j :: 0 <= j < i + 1 ==> history[j].agent != key by {
          forall j | 0 <= j < i + 1 ensures history[j].agent != key {
            if j > 0 { assert history[j] == history[1..][j - 1]; }
          }
        }
      }
    } else if history != [] {
      assert history[0].agent == key;
    }
  }

  /** `... || []`: the messages stored for `key`, empty when there is no entry. */
  function MessagesOf(history: seq<AgentChat>, key: string): seq<Message> {
    Find(history, key).GetOr([])
  }

  /** `getCurrentAgentChat()`. */
  function CurrentChat(st: ChatState): seq<Message> {
    MessagesOf(st.history, st.selected)
  }

  /** The change applied to the selected agent's list by one `chatHistory.map`. */
  datatype Edit = Append(extra: seq<Message>) | Clear

  function ApplyEdit(e: Edit, messages: seq<Message>): seq<Message> {
    match e
    case Append(extra) => messages + extra
    case Clear => []
  }

  /**
   * `history.map(chat => chat.agent === key ? {...chat, messages: edit(chat.messages)} : chat)`:
   * every entry for `key` is edited, every other entry is returned as it was.
   */
  function UpdateAgent(history: seq<AgentChat>, key: string, e: Edit): (r: seq<AgentChat>)
    ensures |r| == |history|
    ensures forall i :: 0 <= i < |r| ==> r[i].agent == history[i].agent
    ensures forall i :: 0 <= i < |r| && history[i].agent != key ==> r[i] == history[i]
    ensures forall i :: 0 <= i < |r| && history[i].agent == key ==> r[i].messages == ApplyEdit(e, history[i].messages)
  {
    if history == [] then []
    else
      var head := if history[0].agent == key then history[0].(messages := ApplyEdit(e, history[0].messages)) else history[0];
      var r := [head] + UpdateAgent(history[1..], key, e);
      assert forall i :: 1 <= i < |r| ==> r[i] == UpdateAgent(history[1..], key, e)[i - 1] && history[i] == history[1..][i - 1];
      r
  }

  /** After an update the entry found for `key` is the edited one (or still missing). */
  lemma {:induction false} FindUpdatedSame(history: seq<AgentChat>, key: string, e: Edit)
    ensures Find(UpdateAgent(history, key, e), key) ==
      (match Find(history, key) case None => None case Some(m) => Some(ApplyEdit(e, m)))
  {
    if history != [] && history[0].agent != key {
      FindUpdatedSame(history[1..], key, e);
      assert UpdateAgent(history, key, e)[1..] == UpdateAgent(history[1..], key, e);
    }
  }

  /** An update for `key` does not change what is found for any other key. */
  lemma {:induction false} FindUpdatedOther(history: seq<AgentChat>, key: string, other: string, e: Edit)
    requires other != key
    ensures Find(UpdateAgent(history, key, e), other) == Find(history, other)
  {
    if history != [] && history[0].agent != other {
      FindUpdatedOther(history[1..], key, other, e);
      assert UpdateAgent(history, key, e)[1..] == UpdateAgent(history[1..], key, e);
    }
  }

  /** An edit for one key leaves every other key's list as it was, whether or not the key has an entry. */
  lemma MessagesOfOtherKeys(history: seq<AgentChat>, key: string, e: Edit)
    ensures forall k :: k != key ==> MessagesOf(UpdateAgent(history, key, e), k) == MessagesOf(history, k)
  {
    forall k | k != key
      ensures MessagesOf(UpdateAgent(history, key, e), k) == MessagesOf(history, k)
    {
      FindUpdatedOther(history, key, k, e);
    }
  }

  /** `MessagesOf` after an update: the selected list is edited, all others are untouched. */
  lemma MessagesOfUpdate(history: seq<AgentChat>, key: string, e: Edit)
    requires Find(history, key).Some?
    ensures MessagesOf(UpdateAgent(history, key, e), key) == ApplyEdit(e, MessagesOf(history, key))
    ensures forall k :: k != key ==> MessagesOf(UpdateAgent(history, key, e), k) == MessagesOf(history, k)
  {
    FindUpdatedSame(history, key, e);
    MessagesOfOtherKeys(history, key, e);
  }

  /** Two appends to the same agent in a row are one append of both. */
  lemma {:induction false} UpdateAppendTwice(history: seq<AgentChat>, key: string, a: seq<Message>, b: seq<Message>)
    ensures UpdateAgent(UpdateAgent(history, key, Append(a)), key, Append(b)) == UpdateAgent(history, key, Append(a + b))
  {
    if history != [] {
      UpdateAppendTwice(history[1..], key, a, b);
      assert UpdateAgent(history, key, Append(a))[1..] == UpdateAgent(history[1..], key, Append(a));
      assert history[0].messages + a + b == history[0].messages + (a + b);
    }
  }

  /** Clearing the same agent twice is clearing it once. */
  lemma UpdateClearTwice(history: seq<AgentChat>, key: string)
    ensures UpdateAgent(UpdateAgent(history, key, Clear), key, Clear) == UpdateAgent(history, key, Clear)
  {
  }

  /** In a well-formed state the history has an entry for the selected key. */
  lemma WellFormedHasEntry(st: ChatState)
    requires WellFormed(st)
    ensures Find(st.history, st.selected).Some?
  {
    var i :| 0 <= i < |Agents.AgentKeys| && Agents.AgentKeys[i] == st.selected;
    assert st.history[i].agent == st.selected;
    FindIsFirstMatch(st.history, st.selected);
  }

  /** A history whose lists are all empty has no messages for any key. */
  lemma {:induction false} EmptyListsHaveNoMessages(history: seq<AgentChat>, key: string)
    requires forall i :: 0 <= i < |history| ==> history[i].messages == []
    ensures MessagesOf(history, key) == []
  {
    if history != [] && history[0].agent != key {
      assert forall i :: 0 <= i < |history| - 1 ==> history[1..][i] == history[i + 1];
      EmptyListsHaveNoMessages(history[1..], key);
    }
  }

  lemma NoListHasMessages(history: seq<AgentChat>)
    requires forall i :: 0 <= i < |history| ==> history[i].messages == []
    ensures forall k :: MessagesOf(history, k) == []
  {
    forall k ensures MessagesOf(history, k) == [] {
      EmptyListsHaveNoMessages(history, k);
    }
  }

  // ---------------------------------------------------------------------------
  // Transitions

  /** The state the home screen mounts with: "BOT" selected, four empty lists. */
  function Initial(): (st: ChatState)
    ensures WellFormed(st)
    ensures st.selected == Agents.DefaultAgent
    ensures forall k :: MessagesOf(st.history, k) == []
    ensures st.input == [] && !st.loading
  {
    var history := [AgentChat("NFT", []), AgentChat("TRADING", []), AgentChat("ANALYSIS", []), AgentChat("BOT", [])];
    NoListHasMessages(history);
    ChatState(Agents.DefaultAgent, history, "", false, "")
  }

  /** `handleAgentSelection(key)`: only the selection changes. */
  function SelectAgent(st: ChatState, key: string): (r: ChatState)
    ensures r.selected == key
    ensures r.history == st.history && r.input == st.input && r.loading == st.loading && r.aiResponse == st.aiResponse
    ensures WellFormed(r) <==> key in Agents.AgentKeys && TableShaped(st.history)
  {
    st.(selected := key)
  }

  /** `onChangeText={setUserInput}`: the typed text is kept as it is. */
  function EditInput(st: ChatState, text: string): (r: ChatState)
    ensures r.input == text
    ensures r.history == st.history && r.selected == st.selected && r.loading == st.loading && r.aiResponse == st.aiResponse
  {
    st.(input := text)
  }

  /** `!userInput.trim()`. */
  predicate IsBlank(text: string) {
    Trim(text) == []
  }

  /**
   * The synchronous part of `handleAiInteraction`: blank input is ignored;
   * otherwise the untrimmed input is appended to the selected agent's list
   * as a user turn, the input is cleared and the loading flag is raised.
   */
  function StartSend(st: ChatState): (r: ChatState)
    ensures IsBlank(st.input) ==> r == st
    ensures !IsBlank(st.input) ==> r.input == [] && r.loading && r.selected == st.selected && r.aiResponse == st.aiResponse
    ensures !IsBlank(st.input) && Find(st.history, st.selected).Some? ==>
      CurrentChat(r) == CurrentChat(st) + [UserTurn(st.input)]
    ensures forall k :: k != st.selected ==> MessagesOf(r.history, k) == MessagesOf(st.history, k)
    ensures WellFormed(st) ==> WellFormed(r)
  {
    if IsBlank(st.input) then st
    else
      var h := UpdateAgent(st.history, st.selected, Append([UserTurn(st.input)]));
      FindUpdatedSame(st.history, st.selected, Append([UserTurn(st.input)]));
      MessagesOfOtherKeys(st.history, st.selected, Append([UserTurn(st.input)]));
      st.(history := h, input := "", loading := true)
  }

  /**
   * `list.slice(-n)`: the last `n` elements, or all of them when there are
   * fewer. `slice(-0)` is `slice(0)`, the whole list.
   */
  function LastN(s: seq<Message>, n: nat): (r: seq<Message>)
    ensures |r| == if n == 0 || |s| <= n then |s| else n
    ensures r == s[|s| - |r|..]
  {
    if n == 0 || |s| <= n then s else s[|s| - n..]
  }

  /**
   * `messagesForAPI`: a system turn carrying the selected agent's prompt,
   * followed by the last `ContextWindow` messages of the selected list.
   * Nothing when the selected key is not one of the table's keys: for a key
   * that names no property at all the source's property access throws,
   * which lands in its error path. Keys naming inherited object properties
   * are treated the same way here, although the source does not throw for
   * them.
   */
  function RequestContext(st: ChatState): (r: Option<seq<Message>>)
    ensures r.Some? <==> st.selected in Agents.AgentKeys
    ensures r.Some? ==> |r.value| - 1 == if |CurrentChat(st)| <= ContextWindow then |CurrentChat(st)| else ContextWindow
    ensures r.Some? ==> r.value[0] == Message("system", Agents.Lookup(st.selected).value.systemPrompt)
    ensures r.Some? ==> r.value[1..] == CurrentChat(st)[|CurrentChat(st)| + 1 - |r.value|..]
  {
    match Agents.Lookup(st.selected)
    case None => None
    case Some(profile) =>
      Some([Message("system", profile.systemPrompt)] + LastN(CurrentChat(st), ContextWindow))
  }

  /**
   * The intended completion of `handleAiInteraction`, the correction of
   * `FinishSendAsWritten` (which models the code as written). It is applied
   * to the state `now` at the moment the response arrives, for the agent
   * that was selected when the input was sent: a reply or the apology is
   * appended to that agent's current list; without choices only the loading
   * flag drops. Edits made to the history while the request was pending are
   * kept, where the code as written discards them; the two agree on an
   * uninterrupted send (`FinishAgreesWhenUninterrupted`).
   */
  function FinishSend(now: ChatState, agent: string, o: Outcome): (r: ChatState)
    ensures !r.loading
    ensures r.selected == now.selected && r.input == now.input
    ensures forall k :: k != agent ==> MessagesOf(r.history, k) == MessagesOf(now.history, k)
    ensures Find(now.history, agent).Some? ==>
      MessagesOf(r.history, agent) == MessagesOf(now.history, agent) +
        (match o case Reply(c) => [AssistantTurn(c)] case Failed => [AssistantTurn(Apology)] case NoChoices => [])
    ensures WellFormed(now) ==> WellFormed(r)
  {
    match o
    case Reply(c) =>
      FinishWith(now, agent, c)
    case Failed =>
      FinishWith(now, agent, Apology)
    case NoChoices =>
      now.(loading := false)
  }

  function FinishWith(now: ChatState, agent: string, reply: string): (r: ChatState)
    ensures !r.loading && r.aiResponse == reply
    ensures r.selected == now.selected && r.input == now.input
    ensures forall k :: k != agent ==> MessagesOf(r.history, k) == MessagesOf(now.history, k)
    ensures Find(now.history, agent).Some? ==>
      MessagesOf(r.history, agent) == MessagesOf(now.history, agent) + [AssistantTurn(reply)]
    ensures WellFormed(now) ==> WellFormed(r)
  {
    var h := UpdateAgent(now.history, agent, Append([AssistantTurn(reply)]));
    MessagesOfOtherKeys(now.history, agent, Append([AssistantTurn(reply)]));
    FindUpdatedSame(now.history, agent, Append([AssistantTurn(reply)]));
    now.(history := h, loading := false, aiResponse := reply)
  }

  /**
   * `handleAiInteraction` run without anything happening while the request
   * is pending: blank input changes nothing; otherwise the user turn and
   * then the outcome's assistant turn are appended to the selected agent.
   * When the selected key is not one of the table's keys the request is
   * taken as failed whatever the outcome, which is what the source does for
   * a key that names no property at all.
   */
  function Send(st: ChatState, o: Outcome): (r: ChatState)
    ensures IsBlank(st.input) ==> r == st
    ensures WellFormed(st) ==> WellFormed(r)
  {
    if IsBlank(st.input) then st
    else
      var started := StartSend(st);
      // `RequestContext(started)` is missing exactly when the key is not in the table.
      var effective := if started.selected !in Agents.AgentKeys then Failed else o;
      FinishSend(started, st.selected, effective)
  }

  /**
   * What a non-blank send does to a well-formed state: the selected list
   * gains the user turn followed by the reply, the apology, or nothing;
   * every other list is unchanged; the input ends empty and the loading
   * flag lowered.
   */
  lemma SendEffect(st: ChatState, o: Outcome) returns (r: ChatState)
    requires WellFormed(st) && !IsBlank(st.input)
    ensures r == Send(st, o)
    ensures r.selected == st.selected && r.input == [] && !r.loading
    ensures o.Reply? ==> CurrentChat(r) == CurrentChat(st) + [UserTurn(st.input), AssistantTurn(o.content)] && r.aiResponse == o.content
    ensures o.Failed? ==> CurrentChat(r) == CurrentChat(st) + [UserTurn(st.input), AssistantTurn(Apology)] && r.aiResponse == Apology
    ensures o.NoChoices? ==> CurrentChat(r) == CurrentChat(st) + [UserTurn(st.input)] && r.aiResponse == st.aiResponse
    ensures forall k :: k != st.selected ==> MessagesOf(r.history, k) == MessagesOf(st.history, k)
  {
    WellFormedHasEntry(st);
    var started := StartSend(st);
    MessagesOfUpdate(st.history, st.selected, Append([UserTurn(st.input)]));
    r := FinishSend(started, st.selected, o);
  }

  /**
   * The request sent for a non-blank input in a well-formed state: the
   * system prompt of the selected agent, then the last min(5, n) messages
   * of the updated list, the newest being the user turn just added.
   */
  lemma SendContext(st: ChatState) returns (ctx: seq<Message>)
    requires WellFormed(st) && !IsBlank(st.input)
    ensures RequestContext(StartSend(st)) == Some(ctx)
    ensures CurrentChat(StartSend(st)) == CurrentChat(st) + [UserTurn(st.input)]
    ensures |ctx| == 1 + (if |CurrentChat(st)| + 1 <= ContextWindow then |CurrentChat(st)| + 1 else ContextWindow)
    ensures |ctx| <= 6
    ensures ctx[0] == Message("system", Agents.Lookup(st.selected).value.systemPrompt)
    ensures ctx[|ctx| - 1] == UserTurn(st.input)
    ensures ctx[1..] == CurrentChat(StartSend(st))[|CurrentChat(st)| + 2 - |ctx|..]
  {
    WellFormedHasEntry(st);
    MessagesOfUpdate(st.history, st.selected, Append([UserTurn(st.input)]));
    ctx := RequestContext(StartSend(st)).value;
  }

  /** "New Chat": the selected agent's list is emptied. */
  function NewChat(st: ChatState): (r: ChatState)
    ensures CurrentChat(r) == []
    ensures forall k :: k != st.selected ==> MessagesOf(r.history, k) == MessagesOf(st.history, k)
    ensures r.selected == st.selected && r.input == st.input && r.loading == st.loading
    ensures WellFormed(st) ==> WellFormed(r)
  {
    var h := UpdateAgent(st.history, st.selected, Clear);
    FindUpdatedSame(st.history, st.selected, Clear);
    MessagesOfOtherKeys(st.history, st.selected, Clear);
    st.(history := h)
  }

  /** Pressing "New Chat" twice is pressing it once. */
  lemma NewChatIdempotent(st: ChatState)
    ensures NewChat(NewChat(st)) == NewChat(st)
  {
  }

  // ---------------------------------------------------------------------------
  // Event sequences

  /** What the user can do on the home screen; `PickAgent` comes from the agent menu. */
  datatype Event = PickAgent(key: string) | Type(text: string) | SendInput(outcome: Outcome) | PressNewChat

  /** The agent menu offers exactly the keys of the agent table. */
  predicate FromMenu(e: Event) {
    e.PickAgent? ==> e.key in Agents.AgentKeys
  }

  function Step(st: ChatState, e: Event): ChatState {
    match e
    case PickAgent(key) => SelectAgent(st, key)
    case Type(text) => EditInput(st, text)
    case SendInput(o) => Send(st, o)
    case PressNewChat => NewChat(st)
  }

  function Run(st: ChatState, events: seq<Event>): ChatState
    decreases |events|
  {
    if events == [] then st else Run(Step(st, events[0]), events[1..])
  }

  /** Every event offered by the screen keeps the state well-formed. */
  lemma {:induction false} RunKeepsWellFormed(st: ChatState, events: seq<Event>)
    requires WellFormed(st)
    requires forall i :: 0 <= i < |events| ==> FromMenu(events[i])
    ensures WellFormed(Run(st, events))
    decreases |events|
  {
    if events != [] {
      assert FromMenu(events[0]);
      RunKeepsWellFormed(Step(st, events[0]), events[1..]);
    }
  }

  /**
   * From the initial state, whatever the user does, the selected agent is
   * one of the four keys, the history holds exactly those four entries, and
   * the agent-table and history lookups for the selection never miss.
   */
  lemma SelectionAlwaysKnown(events: seq<Event>) returns (st: ChatState)
    requires forall i :: 0 <= i < |events| ==> FromMenu(events[i])
    ensures st == Run(Initial(), events)
    ensures st.selected in Agents.AgentKeys
    ensures |st.history| == 4 && forall i :: 0 <= i < 4 ==> st.history[i].agent == Agents.AgentKeys[i]
    ensures Agents.Lookup(st.selected).Some?
    ensures Find(st.history, st.selected).Some?
  {
    st := Run(Initial(), events);
    RunKeepsWellFormed(Initial(), events);
    WellFormedHasEntry(st);
  }

  // ---------------------------------------------------------------------------
  // The completion as the source writes it

  /**
   * The completion of `handleAiInteraction` as written: the new history is
   * computed from `sent`, the state captured when the input was sent, not
   * from `now`; the selected agent's list becomes its pre-send list plus
   * the user turn and the assistant turn, and every other list reverts to
   * its pre-send value.
   */
  function FinishSendAsWritten(sent: ChatState, now: ChatState, o: Outcome): (r: ChatState)
    ensures !r.loading && r.selected == now.selected && r.input == now.input
    ensures o.NoChoices? ==> r.history == now.history
    ensures !o.NoChoices? ==> forall k :: k != sent.selected ==> MessagesOf(r.history, k) == MessagesOf(sent.history, k)
    ensures !o.NoChoices? && Find(sent.history, sent.selected).Some? ==>
              MessagesOf(r.history, sent.selected) ==
              MessagesOf(sent.history, sent.selected) + [UserTurn(sent.input), AssistantTurn(if o.Reply? then o.content else Apology)]
  {
    match o
    case Reply(c) =>
      var e := Append([UserTurn(sent.input), AssistantTurn(c)]);
      FindUpdatedSame(sent.history, sent.selected, e);
      MessagesOfOtherKeys(sent.history, sent.selected, e);
      now.(history := UpdateAgent(sent.history, sent.selected, e), loading := false, aiResponse := c)
    case Failed =>
      var e := Append([UserTurn(sent.input), AssistantTurn(Apology)]);
      FindUpdatedSame(sent.history, sent.selected, e);
      MessagesOfOtherKeys(sent.history, sent.selected, e);
      now.(history := UpdateAgent(sent.history, sent.selected, e), loading := false, aiResponse := Apology)
    case NoChoices =>
      now.(loading := false)
  }

  /** When nothing happens while the request is pending, the written completion and `FinishSend` agree. */
  lemma FinishAgreesWhenUninterrupted(st: ChatState, o: Outcome)
    requires !IsBlank(st.input)
    ensures FinishSendAsWritten(st, StartSend(st), o) == FinishSend(StartSend(st), st.selected, o)
  {
    match o
    case Reply(c) =>
      UpdateAppendTwice(st.history, st.selected, [UserTurn(st.input)], [AssistantTurn(c)]);
      assert [UserTurn(st.input)] + [AssistantTurn(c)] == [UserTurn(st.input), AssistantTurn(c)];
    case Failed =>
      UpdateAppendTwice(st.history, st.selected, [UserTurn(st.input)], [AssistantTurn(Apology)]);
      assert [UserTurn(st.input)] + [AssistantTurn(Apology)] == [UserTurn(st.input), AssistantTurn(Apology)];
    case NoChoices =>
  }

  /**
   * A "New Chat" pressed while the request is pending is undone by the
   * written completion: the cleared list comes back with the user turn and
   * the reply appended, so it is never empty afterwards. `FinishSend` keeps
   * the list cleared and adds only the reply.
   */
  lemma StaleCompletionUndoesNewChat(st: ChatState, reply: string)
    requires WellFormed(st) && !IsBlank(st.input)
    ensures CurrentChat(NewChat(StartSend(st))) == []
    ensures CurrentChat(FinishSendAsWritten(st, NewChat(StartSend(st)), Reply(reply))) ==
      CurrentChat(st) + [UserTurn(st.input), AssistantTurn(reply)]
    ensures CurrentChat(FinishSend(NewChat(StartSend(st)), st.selected, Reply(reply))) == [AssistantTurn(reply)]
  {
    WellFormedHasEntry(st);
    var pending := NewChat(StartSend(st));
    WellFormedHasEntry(pending);
    MessagesOfUpdate(st.history, st.selected, Append([UserTurn(st.input), AssistantTurn(reply)]));
  }
}

=== FILE: jstext.dfy ===
/**
 * The few pieces of ECMAScript string behaviour the screens rely on:
 * the white-space class behind `\s` and `String.prototype.trim`, the
 * UTF-16 `length` of a string, and upper-casing of a single character.
 *
 * A Dafny `string` is a sequence of Unicode scalar values, whereas a
 * JavaScript string is a sequence of UTF-16 code units; `Utf16Length`
 * bridges the two where the screens compare a length.
 */
module JsText {

  import opened Optional

  /**
   * ECMAScript WhiteSpace plus LineTerminator: the characters `\s` matches
   * and `trim` removes (TAB, VT, FF, SP, NBSP, ZWNBSP, the Zs category,
   * LF, CR, LS, PS).
   */
  predicate IsSpace(c: char) {
    var n := c as int;
    n == 0x09 || n == 0x0A || n == 0x0B || n == 0x0C || n == 0x0D || n == 0x20
    || n == 0xA0 || n == 0x1680 || (0x2000 <= n <= 0x200A)
    || n == 0x2028 || n == 0x2029 || n == 0x202F || n == 0x205F
    || n == 0x3000 || n == 0xFEFF
  }

  /** Every character of `s` is white space (vacuously true of ""). */
  predicate AllSpace(s: string) {
    SpaceBetween(s, 0, |s|)
  }

  /** Every character of `s` at a position in [lo, hi) is white space. */
  predicate SpaceBetween(s: string, lo: int, hi: int) {
    forall k :: lo <= k < hi && 0 <= k < |s| ==> IsSpace(s[k])
  }

  /** No character of `s` is white space. */
  predicate NoSpace(s: string) {
    forall k :: 0 <= k < |s| ==> !IsSpace(s[k])
  }

  /** How many white-space characters `s` starts with. */
  function LeadingSpaces(s: string): (n: nat)
    ensures n <= |s|
    ensures SpaceBetween(s, 0, n)
    ensures n < |s| ==> !IsSpace(s[n])
  {
    if s == [] || !IsSpace(s[0]) then 0 else 1 + LeadingSpaces(s[1..])
  }

  /** How many white-space characters `s` ends with. */
  function TrailingSpaces(s: string): (n: nat)
    ensures n <= |s|
    ensures SpaceBetween(s, |s| - n, |s|)
    ensures n < |s| ==> !IsSpace(s[|s| - 1 - n])
  {
    if s == [] || !IsSpace(s[|s| - 1]) then 0 else 1 + TrailingSpaces(s[..|s| - 1])
  }

  /**
   * `s.trim()`: the slice of `s` left after removing white space at both
   * ends; it neither starts nor ends with white space.
   */
  function Trim(s: string): (r: string)
    ensures exists i, j :: 0 <= i <= j <= |s| && r == s[i..j] && SpaceBetween(s, 0, i) && SpaceBetween(s, j, |s|)
    ensures r == [] || (!IsSpace(r[0]) && !IsSpace(r[|r| - 1]))
  {
    var i := LeadingSpaces(s);
    var n := TrailingSpaces(s[i..]);
    var j := |s| - n;
    assert SpaceBetween(s, j, |s|) by {
      forall k | j <= k < |s| ensures IsSpace(s[k]) {
        assert s[k] == s[i..][k - i];
      }
    }
    assert j < |s| ==> s[j - 1] == s[i..][|s| - i - 1 - n];
    s[i..j]
  }

  /** `!s.trim()`: the trimmed string is empty exactly when `s` is all white space. */
  lemma TrimEmptyIffAllSpace(s: string)
    ensures Trim(s) == [] <==> AllSpace(s)
  {
  }

  /** `s.length`: the number of UTF-16 code units of `s`. */
  function Utf16Length(s: string): (n: nat)
    ensures |s| <= n <= 2 * |s|
    ensures n == 0 <==> s == []
  {
    if s == [] then 0
    else (if s[0] as int > 0xFFFF then 2 else 1) + Utf16Length(s[1..])
  }

  /** A string of characters from the Basic Multilingual Plane has one code unit per character. */
  lemma {:induction false} Utf16LengthOfBmp(s: string)
    requires forall k :: 0 <= k < |s| ==> s[k] as int <= 0xFFFF
    ensures Utf16Length(s) == |s|
  {
    if s != [] {
      Utf16LengthOfBmp(s[1..]);
    }
  }

  /** Number of occurrences of `c` in `s`. */
  function Count(s: string, c: char): (n: nat)
    ensures n <= |s|
    ensures n == 0 <==> c !in s
  {
    if s == [] then 0
    else (if s[0] == c then 1 else 0) + Count(s[1..], c)
  }

  lemma {:induction false} CountAppend(a: string, b: string, c: char)
    ensures Count(a + b, c) == Count(a, c) + Count(b, c)
  {
    if a == [] {
      assert a + b == b;
    } else {
      assert (a + b)[0] == a[0];
      assert (a + b)[1..] == a[1..] + b;
      CountAppend(a[1..], b, c);
    }
  }

  /** The position of the first `c` in `s`, if any: the search behind `BeforeFirst` and the e-mail shape. */
  function IndexOf(s: string, c: char): (r: Option<nat>)
    ensures r.None? <==> c !in s
    ensures r.Some? ==> r.value < |s| && s[r.value] == c
    ensures r.Some? ==> forall k :: 0 <= k < r.value ==> s[k] != c
  {
    if s == [] then None
    else if s[0] == c then Some(0)
    else
      match IndexOf(s[1..], c)
      case None => None
      case Some(i) => Some(i + 1)
  }

  /**
   * `s.split(c)[0]`: the text before the first `c`, or all of `s` when it
   * holds no `c`.
   */
  function BeforeFirst(s: string, c: char): (r: string)
    ensures c !in r
    ensures c in s ==> r + [c] <= s
    ensures c !in s ==> r == s
  {
    match IndexOf(s, c)
    case None => s
    case Some(i) => s[..i]
  }

  /**
   * `toUpperCase` of one character, restricted to the ASCII letters:
   * `a`..`z` become `A`..`Z`, every other character is returned as it is.
   */
  function ToUpperAscii(c: char): (u: char)
    ensures 'a' <= c <= 'z' ==> 'A' <= u <= 'Z' && u as int - c as int == 'A' as int - 'a' as int
    ensures !('a' <= c <= 'z') ==> u == c
  {
    if 'a' <= c <= 'z' then (c as int - 'a' as int + 'A' as int) as char else c
  }
}

=== FILE: login.dfy ===
/**
 * The sign-in screen: the e-mail and password validators, the error text
 * each field shows, the gate in front of the (simulated) sign-in, the
 * live re-validation while typing, and the start-up decision taken from
 * the stored token.
 *
 * Storage reads and writes, the simulated delay and navigation are not
 * performed; their results enter as parameters and their effects leave
 * as plain values.
 */
module Login {

  import opened Optional
  import opened JsText

  const EmailRequired: string := "Email is required"
  const EmailInvalid: string := "Please enter a valid email"
  const PasswordRequired: string := "Password is required"
  const PasswordTooShort: string := "Password must be at least 6 characters"

  /** The shortest accepted password, in UTF-16 code units (`password.length`). */
  const MinPasswordLength: nat := 6

  /** The token stored by a successful sign-in. */
  const DummyToken: string := "dummy-token"

  /** A validator's verdict together with the error text it leaves on its field ("" for none). */
  datatype Validation = Validation(valid: bool, error: string)

  // ---------------------------------------------------------------------------
  // The e-mail pattern /^[^\s@]+@[^\s@]+\.[^\s@]+$/

  /** A character of the class `[^\s@]`. */
  predicate PartChar(c: char) {
    !IsSpace(c) && c != '@'
  }

  /** A match of `[^\s@]+`. */
  predicate Part(t: string) {
    |t| > 0 && forall k :: 0 <= k < |t| ==> PartChar(t[k])
  }

  /**
   * The pattern's meaning: `s` splits as `a@b.c` with `a`, `b` and `c`
   * non-empty and free of white space and '@' (dots are allowed in all
   * three).
   */
  ghost predicate MatchesEmailPattern(s: string) {
    exists a, b, c :: Part(a) && Part(b) && Part(c) && s == a + "@" + b + "." + c
  }

  /** `d` has a '.' that is neither its first nor its last character. */
  predicate HasInnerDot(d: string) {
    exists k :: 1 <= k < |d| - 1 && d[k] == '.'
  }

  /**
   * The shape of an accepted address: no white space, exactly one '@',
   * which is not the first character, and a '.' inside the part after it.
   */
  predicate EmailShape(s: string) {
    && NoSpace(s)
    && Count(s, '@') == 1
    && match IndexOf(s, '@')
       case None => false
       case Some(i) => i > 0 && HasInnerDot(s[i + 1..])
  }

  /** A run of `[^\s@]` characters holds no '@'. */
  lemma PartsHaveNoAt(t: string)
    requires forall k :: 0 <= k < |t| ==> PartChar(t[k])
    ensures Count(t, '@') == 0
  {
  }

  /** A non-empty slice of a text with no white space and no '@' matches `[^\s@]+`. */
  lemma SliceIsPart(t: string, lo: nat, hi: nat)
    requires NoSpace(t) && '@' !in t
    requires lo < hi <= |t|
    ensures Part(t[lo..hi])
  {
  }

  /** When `c` occurs once, at `i`, the rest of the text is free of it. */
  lemma SoleOccurrence(s: string, c: char, i: nat)
    requires Count(s, c) == 1 && i < |s| && s[i] == c
    ensures c !in s[i + 1..]
  {
    assert s == (s[..i] + [s[i]]) + s[i + 1..];
    CountAppend(s[..i] + [s[i]], s[i + 1..], c);
    CountAppend(s[..i], [s[i]], c);
  }

  /** Joining two texts without white space gives a text without white space. */
  lemma JoinNoSpace(x: string, y: string)
    requires NoSpace(x) && NoSpace(y)
    ensures NoSpace(x + y)
  {
  }

  /** The first `c` of `x + y` is `y`'s first character when `x` has none. */
  lemma IndexOfAfter(x: string, y: string, c: char)
    requires c !in x && y != [] && y[0] == c
    ensures IndexOf(x + y, c) == Some(|x|)
  {
    assert (x + y)[|x|] == c;
  }

  /** Putting one '@' between two '@'-free texts gives exactly one '@'. */
  lemma PatternCountsOneAt(a: string, d: string)
    requires Count(a, '@') == 0 && Count(d, '@') == 0
    ensures Count(a + "@" + d, '@') == 1
  {
    assert a + "@" + d == a + ("@" + d);
    CountAppend("@", d, '@');
    CountAppend(a, "@" + d, '@');
  }

  /** A match of the pattern has the accepted shape. */
  lemma PatternHasShape(s: string, a: string, b: string, c: string)
    requires Part(a) && Part(b) && Part(c) && s == a + "@" + b + "." + c
    ensures EmailShape(s)
  {
    var d := b + "." + c;
    assert s == a + "@" + d;
    PartsHaveNoAt(a);
    PartsHaveNoAt(b);
    PartsHaveNoAt(c);
    CountAppend(b, ".", '@');
    CountAppend(b + ".", c, '@');
    PatternCountsOneAt(a, d);
    assert NoSpace("@") && NoSpace(".");
    JoinNoSpace(b, ".");
    JoinNoSpace(b + ".", c);
    JoinNoSpace(a, "@");
    JoinNoSpace(a + "@", d);
    IndexOfAfter(a, "@" + d, '@');
    assert s[|a| + 1..] == d;
    assert d[|b|] == '.';
  }

  /** Cutting a text around one of its characters. */
  lemma CutAround(t: string, k: nat)
    requires k < |t|
    ensures t == t[..k] + [t[k]] + t[k + 1..]
  {
  }

  /** The local part of an accepted address matches `[^\s@]+`. */
  lemma LocalPartIsPart(s: string, i: nat)
    requires NoSpace(s) && 0 < i <= |s| && '@' !in s[..i]
    ensures Part(s[..i])
  {
  }

  /** Both sides of an inner dot of an '@'-free domain match `[^\s@]+`. */
  lemma DomainPartsAreParts(d: string, k: nat)
    requires NoSpace(d) && '@' !in d && 1 <= k < |d| - 1
    ensures Part(d[..k]) && Part(d[k + 1..])
  {
  }

  /** The accepted shape is a match of the pattern. */
  lemma ShapeMatchesPattern(s: string)
    requires EmailShape(s)
    ensures MatchesEmailPattern(s)
  {
    var i := IndexOf(s, '@').value;
    var d := s[i + 1..];
    var k :| 1 <= k < |d| - 1 && d[k] == '.';
    SoleOccurrence(s, '@', i);
    assert NoSpace(d);
    LocalPartIsPart(s, i);
    DomainPartsAreParts(d, k);
    CutAround(s, i);
    CutAround(d, k);
    assert s == s[..i] + "@" + d[..k] + "." + d[k + 1..];
  }

  /**
   * The pattern is exactly the accepted shape: one '@', not first, no white
   * space, and a '.' strictly inside the domain part.
   */
  lemma EmailPatternIffShape(s: string)
    ensures MatchesEmailPattern(s) <==> EmailShape(s)
  {
    if MatchesEmailPattern(s) {
      var a, b, c :| Part(a) && Part(b) && Part(c) && s == a + "@" + b + "." + c;
      PatternHasShape(s, a, b, c);
    }
    if EmailShape(s) {
      ShapeMatchesPattern(s);
    }
  }

  // ---------------------------------------------------------------------------
  // Validators

  /**
   * `validateEmail`: an empty address is reported as required before the
   * pattern is tried; an address that does not match is reported as
   * invalid; a match clears the error.
   */
  function ValidateEmail(email: string): (r: Validation)
    ensures r.valid <==> MatchesEmailPattern(email)
    ensures email == [] ==> r == Validation(false, EmailRequired)
    ensures email != [] && !MatchesEmailPattern(email) ==> r == Validation(false, EmailInvalid)
    ensures r.valid ==> r.error == []
  {
    EmailPatternIffShape(email);
    if email == [] then Validation(false, EmailRequired)
    else if !EmailShape(email) then Validation(false, EmailInvalid)
    else Validation(true, "")
  }

  /**
   * `validatePassword`: an empty password is reported as required, one
   * shorter than six UTF-16 code units as too short; otherwise the error
   * is cleared.
   */
  function ValidatePassword(password: string): (r: Validation)
    ensures r.valid <==> Utf16Length(password) >= MinPasswordLength
    ensures password == [] ==> r == Validation(false, PasswordRequired)
    ensures password != [] && Utf16Length(password) < MinPasswordLength ==> r == Validation(false, PasswordTooShort)
    ensures r.valid ==> r.error == []
  {
    if password == [] then Validation(false, PasswordRequired)
    else if Utf16Length(password) < MinPasswordLength then Validation(false, PasswordTooShort)
    else Validation(true, "")
  }

  /** Six characters always suffice: a character is at least one code unit. */
  lemma SixCharactersPass(password: string)
    requires |password| >= MinPasswordLength
    ensures ValidatePassword(password).valid
  {
  }

  // ---------------------------------------------------------------------------
  // The form

  datatype LoginForm = LoginForm(
    email: string,
    password: string,
    emailError: string,
    passwordError: string,
    loading: bool)

  /** The form when the sign-in screen appears. */
  function EmptyForm(): (f: LoginForm)
    ensures f.emailError == [] && f.passwordError == [] && !f.loading
    ensures ErrorsDescribeFields(f)
  {
    LoginForm("", "", "", "", false)
  }

  /**
   * A shown error always describes the field's current contents: each error
   * is either empty or the one its validator gives for the field now.
   */
  predicate ErrorsDescribeFields(f: LoginForm) {
    && (f.emailError == [] || f.emailError == ValidateEmail(f.email).error)
    && (f.passwordError == [] || f.passwordError == ValidatePassword(f.password).error)
  }

  /**
   * The e-mail field's `onChangeText`: the text is stored, and the field is
   * re-validated only while it shows an error.
   */
  function TypeEmail(f: LoginForm, text: string): (r: LoginForm)
    ensures r.email == text && r.password == f.password && r.passwordError == f.passwordError && r.loading == f.loading
    ensures f.emailError == [] ==> r.emailError == []
    ensures f.emailError != [] ==> r.emailError == ValidateEmail(text).error
    ensures ErrorsDescribeFields(f) ==> ErrorsDescribeFields(r)
  {
    var f' := f.(email := text);
    if f.emailError != [] then f'.(emailError := ValidateEmail(text).error) else f'
  }

  /**
   * The password field's `onChangeText`: the text is stored, and the field
   * is re-validated only while it shows an error.
   */
  function TypePassword(f: LoginForm, text: string): (r: LoginForm)
    ensures r.password == text && r.email == f.email && r.emailError == f.emailError && r.loading == f.loading
    ensures f.passwordError == [] ==> r.passwordError == []
    ensures f.passwordError != [] ==> r.passwordError == ValidatePassword(text).error
    ensures ErrorsDescribeFields(f) ==> ErrorsDescribeFields(r)
  {
    var f' := f.(password := text);
    if f.passwordError != [] then f'.(passwordError := ValidatePassword(text).error) else f'
  }

  /** What pressing "Login" led to, besides the form's new state. */
  datatype LoginResult = LoginResult(form: LoginForm, storedToken: Option<string>, goHome: bool)

  /**
   * `handleLogin`: both validators run (so both fields show their current
   * error); only when both pass is the token written and the home screen
   * opened. `writeSucceeds` is the outcome of the storage write; when it
   * fails the error is only logged. The loading flag is lowered at the end
   * either way.
   */
  function HandleLogin(f: LoginForm, writeSucceeds: bool): (r: LoginResult)
    ensures r.form.email == f.email && r.form.password == f.password
    ensures r.form.emailError == ValidateEmail(f.email).error
    ensures r.form.passwordError == ValidatePassword(f.password).error
    ensures r.goHome <==> ValidateEmail(f.email).valid && ValidatePassword(f.password).valid && writeSucceeds
    ensures r.storedToken.Some? <==> r.goHome
    ensures r.storedToken.Some? ==> r.storedToken.value == DummyToken
    ensures !(ValidateEmail(f.email).valid && ValidatePassword(f.password).valid) ==> r.form.loading == f.loading
    ensures ValidateEmail(f.email).valid && ValidatePassword(f.password).valid ==> !r.form.loading
    ensures ErrorsDescribeFields(r.form)
  {
    var e := ValidateEmail(f.email);
    var p := ValidatePassword(f.password);
    var checked := f.(emailError := e.error, passwordError := p.error);
    if !e.valid || !p.valid then LoginResult(checked, None, false)
    else if writeSucceeds then LoginResult(checked.(loading := false), Some(DummyToken), true)
    else LoginResult(checked.(loading := false), None, false)
  }

  /** After pressing "Login" a field shows no error exactly when its content passes. */
  lemma LoginErrorsMatchVerdicts(f: LoginForm, writeSucceeds: bool)
    ensures HandleLogin(f, writeSucceeds).form.emailError == [] <==> MatchesEmailPattern(f.email)
    ensures HandleLogin(f, writeSucceeds).form.passwordError == [] <==> Utf16Length(f.password) >= MinPasswordLength
  {
  }

  // ---------------------------------------------------------------------------
  // The start-up check

  /** The result of reading the stored token: a value (possibly absent) or a read failure. */
  datatype TokenRead = ReadValue(token: Option<string>) | ReadFailed

  datatype Route = GoHome | ShowForm

  /**
   * `checkLogin`: a truthy stored token (present and not empty) opens the
   * home screen; a missing or empty token, or a failed read, shows the form.
   */
  function CheckLogin(read: TokenRead): (r: Route)
    ensures r == GoHome <==> read.ReadValue? && read.token.Some? && read.token.value != []
  {
    match read
    case ReadFailed => ShowForm
    case ReadValue(None) => ShowForm
    case ReadValue(Some(t)) => if t != [] then GoHome else ShowForm
  }

  /** A sign-in that got through stores a token that the next start-up check accepts. */
  lemma StoredTokenOpensHome(f: LoginForm)
    requires HandleLogin(f, true).goHome
    ensures CheckLogin(ReadValue(HandleLogin(f, true).storedToken)) == GoHome
  {
  }
}

=== FILE: optional.dfy ===
/** The JavaScript `undefined`/`null` cases the screens guard against with `?.` and `||`. */
module Optional {

  datatype Option<+T> = None | Some(value: T) {

    /** The value, or `default` when there is none (the `x ?? default` idiom). */
    function GetOr(default: T): T {
      match this
      case Some(v) => v
      case None => default
    }
  }
}

=== FILE: profile.dfy ===
/**
 * The signed-in user's labels on the home screen: the one-letter avatar
 * shown when there is no profile picture, the short name next to it, and
 * the longer name in the profile menu. Each falls back, in order, from the
 * first name to the first listed e-mail address to a fixed word.
 */
module Profile {

  import opened Optional
  import opened JsText

  /** The parts of the account record the labels read; `emails` lists the addresses in the account's order. */
  datatype User = User(firstName: Option<string>, lastName: Option<string>, emails: seq<string>)

  /** The first listed e-mail address (`emailAddresses[0]`), when the user is known and has one. */
  function FirstEmail(user: Option<User>): (r: Option<string>)
    ensures r.Some? <==> user.Some? && user.value.emails != []
    ensures r.Some? ==> r.value == user.value.emails[0]
  {
    if user.Some? && user.value.emails != [] then Some(user.value.emails[0]) else None
  }

  /** The first name when it is present and not empty (a truthy `firstName`). */
  function GivenName(user: Option<User>): (r: Option<string>)
    ensures r.Some? ==> r.value != []
    ensures r.None? <==> user.None? || user.value.firstName.None? || user.value.firstName.value == []
  {
    if user.Some? && user.value.firstName.Some? && user.value.firstName.value != [] then user.value.firstName else None
  }

  /**
   * The avatar letter: the first character of the first name; else the
   * first character of the first listed address, upper-cased; else "U".
   */
  function Initial(user: Option<User>): (r: string)
    ensures |r| == 1
    ensures GivenName(user).Some? ==> r[0] == GivenName(user).value[0]
    ensures GivenName(user).None? && FirstEmail(user).Some? && FirstEmail(user).value != [] ==>
              r[0] == ToUpperAscii(FirstEmail(user).value[0])
    ensures GivenName(user).None? && (FirstEmail(user).None? || FirstEmail(user).value == []) ==> r == "U"
  {
    match GivenName(user)
    case Some(name) => [name[0]]
    case None =>
      match FirstEmail(user)
      case Some(email) => if email != [] then [ToUpperAscii(email[0])] else "U"
      case None => "U"
  }

  /**
   * The short name: the first name; else the first listed address up to its
   * first '@' when that part is not empty; else "Profile".
   */
  function ShortName(user: Option<User>): (r: string)
    ensures r != []
    ensures GivenName(user).Some? ==> r == GivenName(user).value
    ensures GivenName(user).None? && r != "Profile" ==>
              FirstEmail(user).Some? && '@' !in r && r <= FirstEmail(user).value
    ensures GivenName(user).None? && FirstEmail(user).Some? && BeforeFirst(FirstEmail(user).value, '@') != [] ==>
              r == BeforeFirst(FirstEmail(user).value, '@')
    ensures GivenName(user).None? && (FirstEmail(user).None? || BeforeFirst(FirstEmail(user).value, '@') == []) ==>
              r == "Profile"
  {
    match GivenName(user)
    case Some(name) => name
    case None =>
      var local := match FirstEmail(user) case Some(email) => BeforeFirst(email, '@') case None => "";
      if local != [] then local else "Profile"
  }

  /** Both names are truthy, so the menu shows "first last". */
  predicate HasFullName(user: Option<User>)
  {
    GivenName(user).Some? && user.value.lastName.Some? && user.value.lastName.value != []
  }

  /**
   * The name in the profile menu: "first last" when both names are truthy;
   * else the first listed address when it is not empty; else "User".
   */
  function MenuName(user: Option<User>): (r: string)
    ensures r != []
    ensures HasFullName(user) ==> r == user.value.firstName.value + " " + user.value.lastName.value
    ensures r != "User" && !HasFullName(user) ==> FirstEmail(user) == Some(r)
    ensures !HasFullName(user) && FirstEmail(user).Some? && FirstEmail(user).value != [] ==>
              r == FirstEmail(user).value
    ensures !HasFullName(user) && (FirstEmail(user).None? || FirstEmail(user).value == []) ==>
              r == "User"
  {
    if HasFullName(user) then
      user.value.firstName.value + " " + user.value.lastName.value
    else
      match FirstEmail(user)
      case Some(email) => if email != [] then email else "User"
      case None => "User"
  }

  /**
   * The avatar letter is the short name's first character (upper-cased when
   * the short name comes from the address), except when the address begins
   * with '@': then the short name falls back to "Profile" while the letter
   * is '@'.
   */
  lemma InitialStartsShortName(user: Option<User>)
    ensures GivenName(user).Some? ==> Initial(user) == [ShortName(user)[0]]
    ensures GivenName(user).None? && ShortName(user) != "Profile" ==> Initial(user) == [ToUpperAscii(ShortName(user)[0])]
    ensures GivenName(user).None? && FirstEmail(user).Some? && FirstEmail(user).value != [] && FirstEmail(user).value[0] == '@' ==>
              ShortName(user) == "Profile" && Initial(user) == "@"
  {
  }
}
